=== FILE: README.md ===
# MasterTherm homebridge plugin — a Dafny model

This project models the homebridge plugin for MasterTherm heat pumps. The plugin
logs in to the vendor's cloud service and lists the heat-pump modules of the
account. It exposes each module to Apple HomeKit as four accessories:

- a heat-pump thermostat;
- an indoor temperature sensor;
- an outdoor temperature sensor;
- a hot-water thermostat.

A four-mode thermostat class (`MasterThermPlatformAccessory`), which the platform never builds, is modelled as well.

The device state is a **snapshot** that maps wire keys to raw values. A wire key
is a kind prefix, an underscore and a decimal point id: `D_3` is a boolean point,
`I_50` an integer point and `A_191` an analog point. The accessories decode
snapshots into HomeKit states and temperatures, and they turn HomeKit requests
into point writes.

Modules:

- `Wrappers` (wrappers.dfy): `Option`, `Result` and `Outcome`.
- `Points` (points.dfy):
  - snapshots and the wire-key codec;
  - the boolean, integer and analog point reads;
  - `Apply`, which gives the snapshot a device reports once a sequence of writes has taken effect.
- `HomeKit` (homekit.dfy):
  - the current and target heating/cooling states;
  - the value a setter receives;
  - the single status `SERVICE_COMMUNICATION_FAILURE` that guarded handlers report.
- `Api` (api.dfy): the vendor client, modelled as a class whose `log` records every `setData` request. Writes are awaited one after another, so a refused write is the last one sent.
- `PlatformAccessory` (platform_accessory.dfy): `MasterThermPlatformAccessory`. It has its own snapshot cache and no error mapping.
- `HeatPumpThermostat`, `HotWaterThermostat`, `TemperatureSensor`: the three accessories that discovery builds.
- `Platform` (platform.dfy): `MasterThermHomebridgePlatform`. Discovery is specified by the function `Discover`, a recursion over the module list. The imperative loop is proved against it.

Anything that comes from the network or from homebridge is a parameter of the operation that uses it:

- a fetched snapshot or its error;
- the outcome of a login;
- whether the service accepts a write, or which write of a sequence it refuses;
- the per-module fetch during discovery;
- the UUID generator.

The client functions the accessories call (`getData`, `setData`, `getBoolValue`,
`getIntValue`, `getAnalogValue`) are not defined in src/MasterThermAPI.ts, which
holds only a `login()` that returns nothing. Their meaning is therefore chosen here:

- a read of a missing key fails with `PointNotFound`;
- a boolean point is a JSON boolean, or a number read as "not zero";
- an integer point is a number without a fractional part;
- an analog point is any number;
- a write stores a number under the key.

Points where the model follows the code rather than its comments or call sites:

- An accessory's cache is written only by its refresh tick (src/platformAccessory.ts:66, src/TemperatureSensorAccessory.ts:54). An on-demand fetch in a read is used once and not kept.
- The class comment of `MasterThermPlatformAccessory` (src/platformAccessory.ts:6-10) says an instance is created for each accessory the platform registers, but src/platform.ts never builds one. It is modelled on its own.
- `TemperatureSensorAccessory` builds its own client (src/TemperatureSensorAccessory.ts:15-21). src/platform.ts:103 passes it a fifth argument that its constructor does not take.

## Model

| member | source | states |
|---|---|---|
| Points.KeyInjective | src/platformAccessory.ts:136-148 | two points with the same wire key have the same kind and id, so the keys `D_3` and `I_50` that a setter writes can never alias |
| Points.WrittenKeys | src/platformAccessory.ts:136-180 | the literal keys "D_3", "I_50", "A_191" and "A_129" are the wire keys of boolean 3, integer 50 and analog 191 and 129 ("A_129" is the key written at src/HotWaterThermostatAccessory.ts:159) |
| Points.BoolPoint | src/platformAccessory.ts:87 | a boolean read succeeds exactly when the `D_` key is present, and returns true exactly for a JSON true or a non-zero number; otherwise it fails with PointNotFound for that key |
| Points.IntPoint | src/platformAccessory.ts:113 | an integer read succeeds exactly when the `I_` key holds an integral number, and the integer equals that number |
| Points.AnalogPoint | src/platformAccessory.ts:160 | an analog read succeeds exactly when the `A_` key holds a number, and returns that number untouched |
| Points.WriteThenRead | src/platformAccessory.ts:136-180 | a boolean, integer or analog point reads back the value last written to it |
| Points.WriteOtherPoint | src/platformAccessory.ts:139-148 | writing one point leaves the reading of every other point unchanged |
| HomeKit.CommunicationGuard | src/HeatPumpThermostatAccessory.ts:98-100 | a guarded handler succeeds exactly when its body does, with the same value; every error becomes SERVICE_COMMUNICATION_FAILURE |
| HomeKit.CommunicationGuardOutcome | src/HeatPumpThermostatAccessory.ts:140-142 | a guarded setter resolves exactly when its writes do |
| Api.Sent | src/platformAccessory.ts:139-148 | awaited writes stop at the first refused one: the writes sent are a prefix of the plan, ending with the refused write, or the whole plan |
| Api.SentOutcome | src/platformAccessory.ts:139-148 | a write sequence resolves exactly when no write of the plan is refused |
| Api.CachedOrFetched | src/platformAccessory.ts:85 | `cachedData ?? getData(id)`: the cache when it is set, else the fetch result, including its error |
| Api.MasterThermApi.constructor | src/platformAccessory.ts:19 | a new client has sent nothing |
| Api.MasterThermApi.SetData | src/platformAccessory.ts:136 | one request is appended to the log; it resolves exactly when the service accepts it |
| PlatformAccessory.CurrentStateOf | src/platformAccessory.ts:87-96 | OFF iff `D_3` is false; HEAT iff `D_3` and `D_24` are true; COOL iff `D_3` is true and `D_24` false |
| PlatformAccessory.TargetStateOf | src/platformAccessory.ts:108-125 | OFF iff `D_3` is false; with `D_3` true, HEAT iff `I_50` is 1, COOL iff 2, and AUTO for 0 or any other integer |
| PlatformAccessory.TargetStateRoundTrip | src/platformAccessory.ts:108-149 | for each of the four modes, applying the setter's writes to any snapshot makes the target getter report that mode |
| PlatformAccessory.PowerWrittenFirst | src/platformAccessory.ts:138-149 | AUTO, HEAT and COOL write `D_3 = 1` before `I_50`, so when the first write is refused no `I_50` write is sent |
| PlatformAccessory.MasterThermPlatformAccessory.constructor | src/platformAccessory.ts:15-19 | the accessory starts with its own fresh client and no cached snapshot |
| PlatformAccessory.MasterThermPlatformAccessory.HandleCurrentHeatingCoolingStateGet | src/platformAccessory.ts:82-97 | decodes the cached snapshot, or the fetched one while nothing is cached; a failed fetch escapes as the raw error |
| PlatformAccessory.MasterThermPlatformAccessory.HandleTargetHeatingCoolingStateGet | src/platformAccessory.ts:103-126 | the same cache-or-fetch rule around TargetStateOf |
| PlatformAccessory.MasterThermPlatformAccessory.HandleTargetHeatingCoolingStateSet | src/platformAccessory.ts:131-151 | the log grows by the writes of `TargetStateWrites` for the requested mode (OFF `[D_3=0]`, AUTO/HEAT/COOL `[D_3=1, I_50=0/1/2]`, anything else none), cut after the first refused one; the call fails exactly when a write is refused |
| PlatformAccessory.MasterThermPlatformAccessory.HandleCurrentTemperatureGet | src/platformAccessory.ts:156-161 | succeeds exactly when the cache-or-fetch snapshot holds analog 211, and returns it |
| PlatformAccessory.MasterThermPlatformAccessory.HandleTargetTemperatureGet | src/platformAccessory.ts:167-172 | succeeds exactly when the cache-or-fetch snapshot holds analog 191, and returns it |
| PlatformAccessory.MasterThermPlatformAccessory.HandleTargetTemperatureSet | src/platformAccessory.ts:177-181 | exactly one request, the given value to the wire key of analog 191; it fails exactly when the service refuses it |
| PlatformAccessory.MasterThermPlatformAccessory.RefreshTick | src/platformAccessory.ts:64-76 | the cache is replaced only when both the login and the fetch succeed; the first failing step (login, fetch, then the current-state, target-state, target-temperature and current-temperature reads in that order) ends the tick with its raw error; on success the four pushed values decode the fetched snapshot |
| HeatPumpThermostat.CurrentStateOf | src/HeatPumpThermostatAccessory.ts:88-97 | OFF iff `D_3` is false; COOL iff `D_3` and `D_4` are true; HEAT iff `D_3` is true and `D_4` false |
| HeatPumpThermostat.TargetStateOf | src/HeatPumpThermostatAccessory.ts:113-119 | only OFF or HEAT: OFF iff `D_3` is false, HEAT iff it is true |
| HeatPumpThermostat.TargetStateRoundTrip | src/HeatPumpThermostatAccessory.ts:113-137 | applying the writes of OFF or HEAT to any snapshot makes the target getter report that mode |
| HeatPumpThermostat.OnlyOffAndHeatWrite | src/HeatPumpThermostatAccessory.ts:132-139 | the setter writes something iff the request is OFF or HEAT, and it only ever writes the power point `D_3` |
| HeatPumpThermostat.HeatPumpThermostatAccessory.constructor | src/HeatPumpThermostatAccessory.ts:13-17 | the accessory keeps the client the platform gives it |
| HeatPumpThermostat.HeatPumpThermostatAccessory.HandleCurrentHeatingCoolingStateGet | src/HeatPumpThermostatAccessory.ts:82-101 | reads only the shared snapshot; succeeds exactly when CurrentStateOf does, with its value |
| HeatPumpThermostat.HeatPumpThermostatAccessory.HandleTargetHeatingCoolingStateGet | src/HeatPumpThermostatAccessory.ts:107-123 | succeeds exactly when `D_3` is present, with TargetStateOf's value |
| HeatPumpThermostat.HeatPumpThermostatAccessory.HandleTargetHeatingCoolingStateSet | src/HeatPumpThermostatAccessory.ts:128-143 | the log grows by exactly the writes of `TargetStateWrites` (OFF `[D_3=0]`, HEAT `[D_3=1]`, anything else none); the call fails only when a write is sent and refused |
| HeatPumpThermostat.HeatPumpThermostatAccessory.HandleCurrentTemperatureGet | src/HeatPumpThermostatAccessory.ts:148-157 | succeeds exactly when analog 211 is readable, and returns it |
| HeatPumpThermostat.HeatPumpThermostatAccessory.HandleTargetTemperatureGet | src/HeatPumpThermostatAccessory.ts:163-172 | succeeds exactly when analog 191 is readable, and returns it |
| HeatPumpThermostat.HeatPumpThermostatAccessory.HandleTargetTemperatureSet | src/HeatPumpThermostatAccessory.ts:177-185 | exactly one request, the value to analog 191; it fails exactly when the service refuses it |
| HeatPumpThermostat.HeatPumpThermostatAccessory.UpdateTick | src/HeatPumpThermostatAccessory.ts:67-76 | the four pushed values succeed exactly when the current state and both temperatures are readable, and each equals its decoding; the target read never fails once the current read has succeeded |
| HotWaterThermostat.CurrentStateOf | src/HotWaterThermostatAccessory.ts:94-97 | OFF iff `D_3` is false, HEAT iff it is true, never COOL |
| HotWaterThermostat.TargetTemperatureRoundTrip | src/HotWaterThermostatAccessory.ts:146-159 | after the setter's write, analog 129 reads the written value and the current state is unchanged |
| HotWaterThermostat.HotWaterThermostatAccessory.constructor | src/HotWaterThermostatAccessory.ts:13-19 | the accessory keeps its module, its target-temperature bounds and the shared client |
| HotWaterThermostat.HotWaterThermostatAccessory.HandleCurrentHeatingCoolingStateGet | src/HotWaterThermostatAccessory.ts:88-101 | succeeds exactly when `D_3` is present; the state is never COOL |
| HotWaterThermostat.HotWaterThermostatAccessory.HandleTargetHeatingCoolingStateGet | src/HotWaterThermostatAccessory.ts:107-114 | always AUTO, whatever the snapshot, and never fails |
| HotWaterThermostat.HotWaterThermostatAccessory.HandleTargetHeatingCoolingStateSet | src/HotWaterThermostatAccessory.ts:119-121 | accepts any value, changes no state and always resolves |
| HotWaterThermostat.HotWaterThermostatAccessory.HandleCurrentTemperatureGet | src/HotWaterThermostatAccessory.ts:126-135 | succeeds exactly when analog 126 is readable, and returns it |
| HotWaterThermostat.HotWaterThermostatAccessory.HandleTargetTemperatureGet | src/HotWaterThermostatAccessory.ts:141-150 | succeeds exactly when analog 129 is readable, and returns it |
| HotWaterThermostat.HotWaterThermostatAccessory.HandleTargetTemperatureSet | src/HotWaterThermostatAccessory.ts:155-163 | exactly one request, `A_129` with the value; it fails exactly when the service refuses it |
| HotWaterThermostat.HotWaterThermostatAccessory.UpdateTick | src/HotWaterThermostatAccessory.ts:73-82 | the four pushed values succeed exactly when `D_3` and both temperatures are readable; the state is never COOL and the mode is always AUTO |
| TemperatureSensor.TemperatureSensorAccessory.constructor | src/TemperatureSensorAccessory.ts:15-21 | the sensor keeps its name and point, builds its own client and starts with no cache |
| TemperatureSensor.TemperatureSensorAccessory.HandleCurrentTemperatureGet | src/TemperatureSensorAccessory.ts:67-76 | succeeds exactly when the cache-or-fetch snapshot holds analog `valueId`, and returns it; every failure becomes SERVICE_COMMUNICATION_FAILURE |
| TemperatureSensor.TemperatureSensorAccessory.RefreshTick | src/TemperatureSensorAccessory.ts:51-61 | the cache is replaced only when both the login and the fetch succeed, and is never cleared once set; a value is pushed exactly when it can be read from the new snapshot |
| Platform.FindIndex | src/platform.ts:84 | `find`: the position of the first accessory with the UUID, or none when no accessory has it |
| Platform.Place | src/platform.ts:83-95 | the first restored accessory with the UUID (what `find` returns) is reused and nothing is registered; otherwise exactly one new accessory, carrying the module and the display name, is registered |
| Platform.ModuleEffectShape | src/platform.ts:70-143 | a failed fetch adds nothing; otherwise the snapshot is kept and three or four handlers are built for the module's UUIDs in order, sensors on 211 and 3, hot-water bounds from 296 and 297 of that snapshot; discovery goes on iff both bounds are readable |
| Platform.FailureIsFinal | src/platform.ts:70-144 | an error ends the module loop: the modules after it change nothing |
| Platform.RegisteredAreNew | src/platform.ts:84-141 | every registered accessory had no restored counterpart and carries one of the login's modules |
| Platform.FourHandlersPerModule | src/platform.ts:70-144 | an error-free discovery builds four times as many handlers as there are modules and starts one refresh timer per module, in module order |
| Platform.HandlersInModuleOrder | src/platform.ts:70-143 | in an error-free discovery, positions 4i to 4i+3 hold module i's four handlers, in block order, bound to that module's UUIDs |
| Platform.DataIsLastFetched | src/platform.ts:21-72 | after an error-free discovery the shared snapshot is the last module's, whatever the earlier modules fetched |
| Platform.HandlersSeeData | src/platform.ts:70-143 | no handler is built before the shared snapshot has been set |
| Platform.DataStaysSet | src/platform.ts:70-76 | discovery never unsets a shared snapshot that was already set |
| Platform.MasterThermHomebridgePlatform.constructor | src/platform.ts:19-39 | the platform starts with no accessories, no snapshot, no handlers and no timers; no handler exists without a shared snapshot |
| Platform.MasterThermHomebridgePlatform.ConfigureAccessory | src/platform.ts:45-50 | the restored accessory is appended and nothing else changes, so every handler still has a shared snapshot |
| Platform.MasterThermHomebridgePlatform.PlaceAccessory | src/platform.ts:83-95 | the accessory and the registrations are those of Place; nothing else changes |
| Platform.MasterThermHomebridgePlatform.PlaceFirstThree | src/platform.ts:82-126 | the heat-pump and the two sensor blocks add their handlers and registrations in order |
| Platform.MasterThermHomebridgePlatform.DiscoverModule | src/platform.ts:70-143 | one module's turn of the loop has exactly the effect ModuleEffect gives it, and its error is returned |
| Platform.MasterThermHomebridgePlatform.DiscoverModules | src/platform.ts:70-144 | the loop over the modules has exactly the effect Discover gives it, and stops at the first error |
| Platform.MasterThermHomebridgePlatform.DiscoverDevices | src/platform.ts:57-146 | a login that throws rejects the call with nothing built and no timer started; nothing changes either unless returncode is 0; otherwise the re-login timer starts and the effect is Discover's; no handler is ever left without a shared snapshot |
| Platform.MasterThermHomebridgePlatform.RefreshTick | src/platform.ts:74-80 | a successful fetch replaces the shared snapshot; a failure is caught and keeps it, so a set snapshot is never unset |

## Left out

- The login request and the vendor HTTP protocol are not modelled (src/MasterThermAPI.ts:13-23). Its form body applies `+` before `??`, so the password part is never sent. That string-level bug is behind I/O.
- The login result is a parameter. `login()` in src/MasterThermAPI.ts:13-23 returns nothing, but discovery reads `returncode` from it.
- `getData`, `setData`, `getBoolValue`, `getIntValue` and `getAnalogValue` are not defined in src/MasterThermAPI.ts; the accessories import them from './masterthermAPI', which is not part of this model. Their meaning is the one described above.
- Homebridge and HAP plumbing is not modelled:
  - services and characteristics, `setProps` and `updateCharacteristic`;
  - the numeric enum values;
  - the display-units handlers, which return a constant CELSIUS and ignore a set.
- `setInterval` scheduling is not modelled. Each tick is one call, and ticks do not interleave with one another or with handlers.
- Platform.MasterThermHomebridgePlatform.ReloginTick: the periodic re-login is caught and changes no platform state, so it has no contract beyond requiring a started timer.
- The UUID generator is a parameter, and it is not assumed to be injective.
- Platform.Discover: the discovery fetch is a function of the module id, so a module listed twice is given the same snapshot both times, while src/platform.ts:71 makes two independent `getData` calls.
- Temperatures are reals passed through without arithmetic. Floating point is not modelled.
- Logging is not modelled.
- The unused sample `createUser` is not modelled.
- HeatPumpThermostat, HotWaterThermostat: `platform.data` is passed to their reads as a snapshot. Its `undefined` state before discovery is not modelled, because every operation of the platform keeps the class invariant `DataBeforeHandlers` (no handler while the snapshot is unset), proved from Platform.HandlersSeeData and Platform.DataStaysSet.
- Platform.DiscoverDevices: the handlers are values that record their construction arguments. Their update timers are modelled by the UpdateTick functions of the accessory classes.

=== FILE: api.dfy ===
/**
 * The vendor client as the accessories see it. Its HTTP exchanges are not
 * part of this model: a write is a request appended to a log, and whether
 * the service accepts it is a parameter of the call.
 */
module Api {
  import opened Wrappers
  import opened Points

  /** One `setData(moduleId, key, value)` request as sent to the service. */
  datatype Request = SetDataRequest(moduleId: string, key: string, value: real)

  function Requests(moduleId: string, ws: seq<PointWrite>): (rs: seq<Request>)
    ensures |rs| == |ws|
    ensures forall i :: 0 <= i < |ws| ==> rs[i] == SetDataRequest(moduleId, ws[i].key, ws[i].value)
  {
    seq(|ws|, i requires 0 <= i < |ws| => SetDataRequest(moduleId, ws[i].key, ws[i].value))
  }

  /** `rejected` names the first write (by position) that the service refuses, if any. */
  predicate Stops(plan: seq<PointWrite>, rejected: Option<nat>)
  {
    rejected.Some? && rejected.value < |plan|
  }

  /**
   * The writes of a plan that reach the service when each one is awaited
   * before the next is issued: a refused write throws, so it is the last one
   * sent and the rest of the plan is never issued.
   */
  function Sent(plan: seq<PointWrite>, rejected: Option<nat>): (sent: seq<PointWrite>)
    ensures sent <= plan
    ensures Stops(plan, rejected) ==> |sent| == rejected.value + 1
    ensures !Stops(plan, rejected) ==> sent == plan
  {
    if Stops(plan, rejected) then plan[..rejected.value + 1] else plan
  }

  /** What awaiting every write of a plan in order resolves to. */
  function SentOutcome(plan: seq<PointWrite>, rejected: Option<nat>): (o: Outcome<ApiError>)
    ensures o.Pass? <==> !Stops(plan, rejected)
  {
    if Stops(plan, rejected) then Fail(WriteFailed) else Pass
  }

  /** `cachedData ?? await getData(id)`, where `fetch` is what that getData call would give. */
  function CachedOrFetched(cached: Option<Snapshot>, fetch: Result<Snapshot, ApiError>): (r: Result<Snapshot, ApiError>)
    ensures cached.Some? ==> r == Success(cached.value)
    ensures cached.None? ==> r == fetch
  {
    if cached.Some? then Success(cached.value) else fetch
  }

  class MasterThermApi {
    /** Every setData request sent through this client, oldest first. */
    var log: seq<Request>

    constructor ()
      ensures log == []
    {
      log := [];
    }

    /** Sends one write; it resolves when the service accepts it and throws otherwise. */
    method SetData(moduleId: string, key: string, value: real, accepted: bool) returns (r: Outcome<ApiError>)
      modifies this
      ensures log == old(log) + [SetDataRequest(moduleId, key, value)]
      ensures r == if accepted then Pass else Fail(WriteFailed)
    {
      log := log + [SetDataRequest(moduleId, key, value)];
      r := if accepted then Pass else Fail(WriteFailed);
    }
  }
}

=== FILE: heat_pump_thermostat.dfy ===
/**
 * The two-mode heat-pump thermostat (`HeatPumpThermostatAccessory`).
 *
 * It holds no snapshot of its own: every read decodes the platform's shared
 * snapshot, which the caller passes in, and never fetches. Each handler
 * turns any error into the one HomeKit status SERVICE_COMMUNICATION_FAILURE.
 */
module HeatPumpThermostat {
  import opened Wrappers
  import opened Points
  import opened HomeKit
  import opened Api

  const PowerPoint: nat := 3             // D_3: the heat pump is switched on
  const CoolingPoint: nat := 4           // D_4: the compressor runs in cooling mode
  const CurrentTemperaturePoint: nat := 211
  const TargetTemperaturePoint: nat := 191

  /** OFF when switched off, otherwise COOL when cooling and HEAT when not. */
  function CurrentStateOf(s: Snapshot): (r: Result<CurrentState, ApiError>)
    ensures r == Success(CurrentOff) <==> BoolPoint(s, PowerPoint) == Success(false)
    ensures r == Success(CurrentCool) <==>
              BoolPoint(s, PowerPoint) == Success(true) && BoolPoint(s, CoolingPoint) == Success(true)
    ensures r == Success(CurrentHeat) <==>
              BoolPoint(s, PowerPoint) == Success(true) && BoolPoint(s, CoolingPoint) == Success(false)
  {
    var power := BoolPoint(s, PowerPoint);
    if power.Failure? then Failure(power.error)
    else if !power.value then Success(CurrentOff)
    else
      var cooling := BoolPoint(s, CoolingPoint);
      if cooling.Failure? then Failure(cooling.error)
      else if cooling.value then Success(CurrentCool)
      else Success(CurrentHeat)
  }

  /** Only two modes exist here: OFF when switched off, HEAT when on. */
  function TargetStateOf(s: Snapshot): (r: Result<TargetState, ApiError>)
    ensures r.Success? ==> r.value == Off || r.value == Heat
    ensures r == Success(Off) <==> BoolPoint(s, PowerPoint) == Success(false)
    ensures r == Success(Heat) <==> BoolPoint(s, PowerPoint) == Success(true)
  {
    var power := BoolPoint(s, PowerPoint);
    if power.Failure? then Failure(power.error)
    else if power.value then Success(Heat)
    else Success(Off)
  }

  /** OFF and HEAT switch the pump off or on; any other value writes nothing. */
  function TargetStateWrites(req: Requested): seq<PointWrite>
  {
    match req
    case Mode(Off) => [PointWrite("D_3", 0.0)]
    case Mode(Heat) => [PointWrite("D_3", 1.0)]
    case _ => []
  }

  /** OFF and HEAT read back as themselves once their write takes effect. */
  lemma TargetStateRoundTrip(s: Snapshot, t: TargetState)
    requires t == Off || t == Heat
    ensures TargetStateOf(Apply(s, TargetStateWrites(Mode(t)))) == Success(t)
  {
    WrittenKeys();
    var ws := TargetStateWrites(Mode(t));
    assert Apply(s, ws) == Apply(s["D_3" := Number(ws[0].value)], []);
  }

  /** AUTO and COOL are not offered by this thermostat and are dropped without a write. */
  lemma OnlyOffAndHeatWrite(req: Requested)
    ensures TargetStateWrites(req) != [] <==> req == Mode(Off) || req == Mode(Heat)
    ensures forall w :: w in TargetStateWrites(req) ==> w.key == Key(Boolean, PowerPoint)
  {
    WrittenKeys();
  }

  class HeatPumpThermostatAccessory {
    const moduleId: string
    /** The client shared with the platform. */
    const api: MasterThermApi

    constructor (moduleId: string, api: MasterThermApi)
      ensures this.moduleId == moduleId && this.api == api
    {
      this.moduleId := moduleId;
      this.api := api;
    }

    /** `data` is the platform's shared snapshot, read as it is. */
    function HandleCurrentHeatingCoolingStateGet(data: Snapshot): (r: Result<CurrentState, HapStatus>)
      ensures r.Success? <==> CurrentStateOf(data).Success?
      ensures r.Success? ==> CurrentStateOf(data) == Success(r.value)
    {
      CommunicationGuard(CurrentStateOf(data))
    }

    function HandleTargetHeatingCoolingStateGet(data: Snapshot): (r: Result<TargetState, HapStatus>)
      ensures r.Success? <==> BoolPoint(data, PowerPoint).Success?
      ensures r.Success? ==> TargetStateOf(data) == Success(r.value)
    {
      CommunicationGuard(TargetStateOf(data))
    }

    /** Sends the single write of OFF or HEAT; `accepted` is whether the service takes it. */
    method HandleTargetHeatingCoolingStateSet(req: Requested, accepted: bool) returns (r: Outcome<HapStatus>)
      modifies api
      ensures api.log == old(api.log) + Requests(moduleId, TargetStateWrites(req))
      ensures r.Pass? <==> accepted || TargetStateWrites(req) == []
    {
      var sent: Outcome<ApiError> := Pass;
      match req {
        case Mode(Off) =>
          sent := api.SetData(moduleId, "D_3", 0.0, accepted);
        case Mode(Heat) =>
          sent := api.SetData(moduleId, "D_3", 1.0, accepted);
        case _ =>
      }
      r := CommunicationGuardOutcome(sent);
    }

    function HandleCurrentTemperatureGet(data: Snapshot): (r: Result<real, HapStatus>)
      ensures r.Success? <==> AnalogPoint(data, CurrentTemperaturePoint).Success?
      ensures r.Success? ==> AnalogPoint(data, CurrentTemperaturePoint) == Success(r.value)
    {
      CommunicationGuard(AnalogPoint(data, CurrentTemperaturePoint))
    }

    function HandleTargetTemperatureGet(data: Snapshot): (r: Result<real, HapStatus>)
      ensures r.Success? <==> AnalogPoint(data, TargetTemperaturePoint).Success?
      ensures r.Success? ==> AnalogPoint(data, TargetTemperaturePoint) == Success(r.value)
    {
      CommunicationGuard(AnalogPoint(data, TargetTemperaturePoint))
    }

    /**
     * One run of the three-minute update timer: the four reads pushed to
     * HomeKit, in order; the first failing read ends the run with its status.
     * The target state can only fail where the current state already has.
     */
    function UpdateTick(data: Snapshot): (r: Result<Readings, HapStatus>)
      ensures r.Success? <==> CurrentStateOf(data).Success?
                              && AnalogPoint(data, TargetTemperaturePoint).Success?
                              && AnalogPoint(data, CurrentTemperaturePoint).Success?
      ensures r.Success? ==>
                Success(r.value.current) == CurrentStateOf(data)
                && Success(r.value.target) == TargetStateOf(data)
                && Success(r.value.targetTemperature) == AnalogPoint(data, TargetTemperaturePoint)
                && Success(r.value.currentTemperature) == AnalogPoint(data, CurrentTemperaturePoint)
    {
      var current := HandleCurrentHeatingCoolingStateGet(data);
      if current.Failure? then Failure(current.error)
      else
        var target := HandleTargetHeatingCoolingStateGet(data);
        if target.Failure? then Failure(ServiceCommunicationFailure)
        else
          var targetTemperature := HandleTargetTemperatureGet(data);
          if targetTemperature.Failure? then Failure(targetTemperature.error)
          else
            var currentTemperature := HandleCurrentTemperatureGet(data);
            if currentTemperature.Failure? then Failure(currentTemperature.error)
            else Success(Readings(current.value, target.value, targetTemperature.value, currentTemperature.value))
    }

    /** Writes the requested temperature to A_191, the point the target-temperature read uses. */
    method HandleTargetTemperatureSet(value: real, accepted: bool) returns (r: Outcome<HapStatus>)
      modifies api
      ensures api.log == old(api.log) + [SetDataRequest(moduleId, Key(Analog, TargetTemperaturePoint), value)]
      ensures r.Pass? <==> accepted
    {
      WrittenKeys();
      var sent := api.SetData(moduleId, "A_191", value, accepted);
      r := CommunicationGuardOutcome(sent);
    }
  }
}

=== FILE: homekit.dfy ===
/**
 * The HomeKit side of the accessories: the thermostat states they report and
 * accept, and the single error status a handler may surface.
 */
module HomeKit {
  import opened Wrappers
  import opened Points

  /** CurrentHeatingCoolingState: what the device is doing now. */
  datatype CurrentState = CurrentOff | CurrentHeat | CurrentCool

  /** TargetHeatingCoolingState: the mode the user asks for. */
  datatype TargetState = Off | Heat | Cool | Auto

  /**
   * The value a target-state setter receives. HomeKit normally sends one of
   * the four modes, but the handler's parameter is an arbitrary
   * characteristic value, so anything else must be handled as well.
   */
  datatype Requested = Mode(state: TargetState) | OtherValue

  /**
   * The four values a thermostat's update timer pushes to HomeKit when every
   * read succeeds; values pushed before a failing read are not recorded.
   */
  datatype Readings = Readings(current: CurrentState, target: TargetState,
                               targetTemperature: real, currentTemperature: real)

  /** The status every failing handler of a guarded accessory reports. */
  datatype HapStatus = ServiceCommunicationFailure

  /**
   * A handler body wrapped in `try { ... } catch { throw SERVICE_COMMUNICATION_FAILURE }`:
   * values pass through unchanged and every thrown error becomes the one status.
   */
  function CommunicationGuard<T>(r: Result<T, ApiError>): (g: Result<T, HapStatus>)
    ensures g.Success? <==> r.Success?
    ensures g.Success? ==> g.value == r.value
  {
    match r
    case Success(v) => Success(v)
    case Failure(_) => Failure(ServiceCommunicationFailure)
  }

  /** The same guard around a handler that resolves without a value. */
  function CommunicationGuardOutcome(o: Outcome<ApiError>): (g: Outcome<HapStatus>)
    ensures g.Pass? <==> o.Pass?
  {
    match o
    case Pass => Pass
    case Fail(_) => Fail(ServiceCommunicationFailure)
  }
}

=== FILE: hot_water_thermostat.dfy ===
/**
 * The domestic hot-water tank as a thermostat (`HotWaterThermostatAccessory`).
 *
 * It reads the platform's shared snapshot, never fetches, offers the single
 * mode AUTO, and lets only its target temperature be written. Each guarded
 * handler turns any error into SERVICE_COMMUNICATION_FAILURE.
 */
module HotWaterThermostat {
  import opened Wrappers
  import opened Points
  import opened HomeKit
  import opened Api

  const PowerPoint: nat := 3             // D_3: the heat pump is switched on
  const CurrentTemperaturePoint: nat := 126
  const TargetTemperaturePoint: nat := 129

  /** OFF when the pump is switched off, otherwise HEAT; the tank is never cooled. */
  function CurrentStateOf(s: Snapshot): (r: Result<CurrentState, ApiError>)
    ensures r.Success? ==> r.value != CurrentCool
    ensures r == Success(CurrentOff) <==> BoolPoint(s, PowerPoint) == Success(false)
    ensures r == Success(CurrentHeat) <==> BoolPoint(s, PowerPoint) == Success(true)
  {
    var power := BoolPoint(s, PowerPoint);
    if power.Failure? then Failure(power.error)
    else if !power.value then Success(CurrentOff)
    else Success(CurrentHeat)
  }

  /** The one write of the target-temperature setter. */
  function TargetTemperatureWrites(value: real): seq<PointWrite>
  {
    [PointWrite("A_129", value)]
  }

  /** The temperature written is the one the target-temperature read then reports. */
  lemma TargetTemperatureRoundTrip(s: Snapshot, value: real)
    ensures AnalogPoint(Apply(s, TargetTemperatureWrites(value)), TargetTemperaturePoint) == Success(value)
    ensures CurrentStateOf(Apply(s, TargetTemperatureWrites(value))) == CurrentStateOf(s)
  {
    WrittenKeys();
    var ws := TargetTemperatureWrites(value);
    assert Apply(s, ws) == Apply(s["A_129" := Number(value)], []);
    WriteOtherPoint(s, Analog, TargetTemperaturePoint, Boolean, PowerPoint, value);
  }

  class HotWaterThermostatAccessory {
    const moduleId: string
    /** The client shared with the platform. */
    const api: MasterThermApi
    /** Bounds of the target temperature, fixed when the accessory is built. */
    const minValue: real
    const maxValue: real

    constructor (moduleId: string, minValue: real, maxValue: real, api: MasterThermApi)
      ensures this.moduleId == moduleId && this.api == api
      ensures this.minValue == minValue && this.maxValue == maxValue
    {
      this.moduleId := moduleId;
      this.api := api;
      this.minValue := minValue;
      this.maxValue := maxValue;
    }

    /** `data` is the platform's shared snapshot, read as it is. */
    function HandleCurrentHeatingCoolingStateGet(data: Snapshot): (r: Result<CurrentState, HapStatus>)
      ensures r.Success? <==> BoolPoint(data, PowerPoint).Success?
      ensures r.Success? ==> r.value != CurrentCool && CurrentStateOf(data) == Success(r.value)
    {
      CommunicationGuard(CurrentStateOf(data))
    }

    /** AUTO, whatever the snapshot holds, and never an error. */
    function HandleTargetHeatingCoolingStateGet(data: Snapshot): (r: Result<TargetState, HapStatus>)
      ensures r == Success(Auto)
    {
      Success(Auto)
    }

    /** Accepts any value and does nothing with it: the method may change no state at all. */
    method HandleTargetHeatingCoolingStateSet(req: Requested) returns (r: Outcome<HapStatus>)
      ensures r == Pass
    {
      r := Pass;
    }

    function HandleCurrentTemperatureGet(data: Snapshot): (r: Result<real, HapStatus>)
      ensures r.Success? <==> AnalogPoint(data, CurrentTemperaturePoint).Success?
      ensures r.Success? ==> AnalogPoint(data, CurrentTemperaturePoint) == Success(r.value)
    {
      CommunicationGuard(AnalogPoint(data, CurrentTemperaturePoint))
    }

    function HandleTargetTemperatureGet(data: Snapshot): (r: Result<real, HapStatus>)
      ensures r.Success? <==> AnalogPoint(data, TargetTemperaturePoint).Success?
      ensures r.Success? ==> AnalogPoint(data, TargetTemperaturePoint) == Success(r.value)
    {
      CommunicationGuard(AnalogPoint(data, TargetTemperaturePoint))
    }

    /**
     * One run of the update timer: the four reads pushed to HomeKit, in
     * order; the first failing read ends the run with its status. The mode
     * pushed is always AUTO.
     */
    function UpdateTick(data: Snapshot): (r: Result<Readings, HapStatus>)
      ensures r.Success? <==> BoolPoint(data, PowerPoint).Success?
                              && AnalogPoint(data, TargetTemperaturePoint).Success?
                              && AnalogPoint(data, CurrentTemperaturePoint).Success?
      ensures r.Success? ==>
                Success(r.value.current) == CurrentStateOf(data) && r.value.current != CurrentCool
                && r.value.target == Auto
                && Success(r.value.targetTemperature) == AnalogPoint(data, TargetTemperaturePoint)
                && Success(r.value.currentTemperature) == AnalogPoint(data, CurrentTemperaturePoint)
    {
      var current := HandleCurrentHeatingCoolingStateGet(data);
      if current.Failure? then Failure(current.error)
      else
        var target := HandleTargetHeatingCoolingStateGet(data);
        if target.Failure? then Failure(ServiceCommunicationFailure)
        else
          var targetTemperature := HandleTargetTemperatureGet(data);
          if targetTemperature.Failure? then Failure(targetTemperature.error)
          else
            var currentTemperature := HandleCurrentTemperatureGet(data);
            if currentTemperature.Failure? then Failure(currentTemperature.error)
            else Success(Readings(current.value, target.value, targetTemperature.value, currentTemperature.value))
    }

    /** Exactly one write, A_129 with the given value. */
    method HandleTargetTemperatureSet(value: real, accepted: bool) returns (r: Outcome<HapStatus>)
      modifies api
      ensures api.log == old(api.log) + Requests(moduleId, TargetTemperatureWrites(value))
      ensures r.Pass? <==> accepted
    {
      var sent := api.SetData(moduleId, "A_129", value, accepted);
      r := CommunicationGuardOutcome(sent);
    }
  }
}

=== FILE: platform.dfy ===
/**
 * The homebridge platform (`MasterThermHomebridgePlatform`): it collects the
 * accessories homebridge restores from its cache, and after a successful
 * login reconciles them with the modules the login reports. Each module
 * gives four accessories (heat-pump thermostat, indoor and outdoor
 * temperature sensors, hot-water thermostat); one already restored under the
 * same UUID is reused, any other is created and registered. The platform
 * keeps one `data` snapshot that every module's refresh overwrites.
 */
module Platform {
  import opened Wrappers
  import opened Points

  /** One entry of the login reply's module list. */
  datatype ModuleInfo = ModuleInfo(id: string, moduleName: string)

  /** The two fields of the login reply that discovery reads. */
  datatype LoginResponse = LoginResponse(returncode: int, modules: seq<ModuleInfo>)

  /** A homebridge accessory: its display name, its UUID and the module kept in its context. */
  datatype Accessory = Accessory(displayName: string, uuid: string, device: Option<ModuleInfo>)

  /** The handler object discovery builds around an accessory, with its construction arguments. */
  datatype Handler =
    | HeatPumpHandler(accessory: Accessory)
    | SensorHandler(accessory: Accessory, name: string, valueId: nat)
    | HotWaterHandler(accessory: Accessory, minValue: real, maxValue: real)

  const IndoorTemperaturePoint: nat := 211
  const OutdoorTemperaturePoint: nat := 3
  const HotWaterMinPoint: nat := 296
  const HotWaterMaxPoint: nat := 297

  /** The strings the four accessory UUIDs of a module are generated from, in discovery order. */
  function AccessoryKeys(id: string): seq<string>
  {
    [id + "HeatPump", id + "IndoorTemp", id + "OutdoorTemp", id + "HotWater"]
  }

  /** The position of the first accessory with that UUID, if any. */
  function FindIndex(accs: seq<Accessory>, uuid: string): (r: Option<nat>)
    ensures r.Some? ==> r.value < |accs| && accs[r.value].uuid == uuid
                        && forall j :: 0 <= j < r.value ==> accs[j].uuid != uuid
    ensures r.None? ==> forall j :: 0 <= j < |accs| ==> accs[j].uuid != uuid
  {
    if accs == [] then None
    else if accs[0].uuid == uuid then Some(0)
    else
      var rest := FindIndex(accs[1..], uuid);
      if rest.Some? then Some(rest.value + 1) else None
  }

  /** `accessories.find(a => a.UUID === uuid)`: the first accessory with that UUID, if any. */
  function Find(accs: seq<Accessory>, uuid: string): Option<Accessory>
  {
    var i := FindIndex(accs, uuid);
    if i.Some? then Some(accs[i.value]) else None
  }

  /** The accessory a UUID is bound to, and what had to be registered for it. */
  datatype Placement = Placement(accessory: Accessory, registered: seq<Accessory>)

  /**
   * Reuse the restored accessory with this UUID, or create one that carries
   * the module in its context and register it, exactly once.
   */
  function Place(accs: seq<Accessory>, uuid: string, displayName: string, m: ModuleInfo): (p: Placement)
    ensures p.accessory.uuid == uuid
    ensures p.registered == [] <==> Find(accs, uuid).Some?
    ensures p.registered == [] ==> p.accessory in accs && Find(accs, uuid) == Some(p.accessory)
    ensures p.registered != [] ==> p.registered == [p.accessory] && p.accessory.device == Some(m)
                                   && p.accessory.displayName == displayName
  {
    var existing := Find(accs, uuid);
    if existing.Some? then Placement(existing.value, [])
    else
      var created := Accessory(displayName, uuid, Some(m));
      Placement(created, [created])
  }

  /** Handlers built and accessories registered by a stretch of the module loop. */
  datatype Placed = Placed(handlers: seq<Handler>, registered: seq<Accessory>)

  /** The heat-pump thermostat and the two sensors of a module, placed in that order. */
  function FirstThree(accs: seq<Accessory>, m: ModuleInfo, uuidOf: string -> string): Placed
  {
    var keys := AccessoryKeys(m.id);
    var heatPump := Place(accs, uuidOf(keys[0]), "Heating thermostat", m);
    var indoor := Place(accs, uuidOf(keys[1]), "Indoor temperature", m);
    var outdoor := Place(accs, uuidOf(keys[2]), "Outdoor temperature", m);
    Placed([HeatPumpHandler(heatPump.accessory),
            SensorHandler(indoor.accessory, "Indoor", IndoorTemperaturePoint),
            SensorHandler(outdoor.accessory, "Outdoor", OutdoorTemperaturePoint)],
           heatPump.registered + indoor.registered + outdoor.registered)
  }

  /** What discovering one module adds: handlers, registrations, its snapshot and an error that ends discovery. */
  datatype Effect = Effect(handlers: seq<Handler>, registered: seq<Accessory>,
                           fetched: Option<Snapshot>, failure: Option<ApiError>)

  /**
   * One turn of the module loop: fetch the module's snapshot (a failure
   * ends discovery), then place the four accessories in order. The hot-water
   * bounds are read from that snapshot before its handler is built, so a
   * missing bound ends discovery with the first three accessories placed.
   */
  function ModuleEffect(accs: seq<Accessory>, m: ModuleInfo,
                        fetch: string -> Result<Snapshot, ApiError>, uuidOf: string -> string): Effect
  {
    var fetched := fetch(m.id);
    if fetched.Failure? then Effect([], [], None, Some(fetched.error))
    else
      var placed := FirstThree(accs, m, uuidOf);
      var min := AnalogPoint(fetched.value, HotWaterMinPoint);
      var max := AnalogPoint(fetched.value, HotWaterMaxPoint);
      if min.Failure? then Effect(placed.handlers, placed.registered, Some(fetched.value), Some(min.error))
      else if max.Failure? then Effect(placed.handlers, placed.registered, Some(fetched.value), Some(max.error))
      else
        var hotWater := Place(accs, uuidOf(AccessoryKeys(m.id)[3]), "Hot water system", m);
        Effect(placed.handlers + [HotWaterHandler(hotWater.accessory, min.value, max.value)],
               placed.registered + hotWater.registered, Some(fetched.value), None)
  }

  /**
   * The shape of one module's effect: a failed fetch adds nothing; otherwise
   * the snapshot is kept and three or four handlers are built, bound to the
   * module's UUIDs in order, with the hot-water bounds read from that snapshot.
   */
  lemma ModuleEffectShape(accs: seq<Accessory>, m: ModuleInfo,
                          fetch: string -> Result<Snapshot, ApiError>, uuidOf: string -> string)
    ensures var e := ModuleEffect(accs, m, fetch, uuidOf);
            && (fetch(m.id).Failure? ==> e == Effect([], [], None, Some(fetch(m.id).error)))
            && (fetch(m.id).Success? ==> e.fetched == Some(fetch(m.id).value))
            && (e.failure.None? <==> fetch(m.id).Success?
                                     && AnalogPoint(fetch(m.id).value, HotWaterMinPoint).Success?
                                     && AnalogPoint(fetch(m.id).value, HotWaterMaxPoint).Success?)
            && (fetch(m.id).Success? ==> |e.handlers| == (if e.failure.None? then 4 else 3))
    ensures var e := ModuleEffect(accs, m, fetch, uuidOf);
            forall i :: 0 <= i < |e.handlers| ==> e.handlers[i].accessory.uuid == uuidOf(AccessoryKeys(m.id)[i])
    ensures var e := ModuleEffect(accs, m, fetch, uuidOf);
            forall a :: a in e.registered ==> a.device == Some(m) && Find(accs, a.uuid).None?
    ensures var e := ModuleEffect(accs, m, fetch, uuidOf);
            |e.handlers| >= 3 ==>
              && e.handlers[0].HeatPumpHandler?
              && e.handlers[1] == SensorHandler(e.handlers[1].accessory, "Indoor", IndoorTemperaturePoint)
              && e.handlers[2] == SensorHandler(e.handlers[2].accessory, "Outdoor", OutdoorTemperaturePoint)
    ensures var e := ModuleEffect(accs, m, fetch, uuidOf);
            |e.handlers| == 4 ==>
              && e.handlers[3].HotWaterHandler?
              && Success(e.handlers[3].minValue) == AnalogPoint(fetch(m.id).value, HotWaterMinPoint)
              && Success(e.handlers[3].maxValue) == AnalogPoint(fetch(m.id).value, HotWaterMaxPoint)
  {
  }

  /** The accumulated result of discovery: what was built, registered and started, and the shared snapshot. */
  datatype Discovery = Discovery(handlers: seq<Handler>, registered: seq<Accessory>,
                                 refreshTimers: seq<string>, data: Option<Snapshot>,
                                 failure: Option<ApiError>)

  /** One more module; once an error has ended discovery nothing further happens. */
  function Step(d: Discovery, accs: seq<Accessory>, m: ModuleInfo,
                fetch: string -> Result<Snapshot, ApiError>, uuidOf: string -> string): Discovery
  {
    if d.failure.Some? then d
    else
      var e := ModuleEffect(accs, m, fetch, uuidOf);
      Discovery(d.handlers + e.handlers, d.registered + e.registered,
                d.refreshTimers + (if e.fetched.Some? then [m.id] else []),
                if e.fetched.Some? then e.fetched else d.data,
                e.failure)
  }

  /** The modules in order, from a platform whose snapshot is `data0`. */
  function Discover(accs: seq<Accessory>, data0: Option<Snapshot>, ms: seq<ModuleInfo>,
                    fetch: string -> Result<Snapshot, ApiError>, uuidOf: string -> string): Discovery
    decreases |ms|
  {
    if ms == [] then Discovery([], [], [], data0, None)
    else Step(Discover(accs, data0, ms[..|ms| - 1], fetch, uuidOf), accs, ms[|ms| - 1], fetch, uuidOf)
  }

  lemma AppendAssoc<T>(a: seq<T>, b: seq<T>, c: seq<T>)
    ensures a + (b + c) == (a + b) + c
  {
  }

  /** Discovering one module more is one more step. */
  lemma DiscoverOneMore(accs: seq<Accessory>, data0: Option<Snapshot>, ms: seq<ModuleInfo>, i: nat,
                        fetch: string -> Result<Snapshot, ApiError>, uuidOf: string -> string)
    requires i < |ms|
    ensures Discover(accs, data0, ms[..i + 1], fetch, uuidOf)
            == Step(Discover(accs, data0, ms[..i], fetch, uuidOf), accs, ms[i], fetch, uuidOf)
  {
    assert ms[..i + 1][..i] == ms[..i];
  }

  /** An error ends discovery: the modules after it change nothing. */
  lemma {:induction false} FailureIsFinal(accs: seq<Accessory>, data0: Option<Snapshot>, ms: seq<ModuleInfo>, k: nat,
                                          fetch: string -> Result<Snapshot, ApiError>, uuidOf: string -> string)
    requires k <= |ms|
    requires Discover(accs, data0, ms[..k], fetch, uuidOf).failure.Some?
    ensures Discover(accs, data0, ms, fetch, uuidOf) == Discover(accs, data0, ms[..k], fetch, uuidOf)
    decreases |ms|
  {
    if k < |ms| {
      var prefix := ms[..|ms| - 1];
      assert prefix[..k] == ms[..k];
      FailureIsFinal(accs, data0, prefix, k, fetch, uuidOf);
    } else {
      assert ms[..k] == ms;
    }
  }

  /**
   * Only accessories that were not restored are registered, each carrying
   * the module it was created for in its context.
   */
  lemma {:induction false} RegisteredAreNew(accs: seq<Accessory>, data0: Option<Snapshot>, ms: seq<ModuleInfo>,
                                            fetch: string -> Result<Snapshot, ApiError>, uuidOf: string -> string)
    ensures forall a :: a in Discover(accs, data0, ms, fetch, uuidOf).registered ==>
              Find(accs, a.uuid).None? && a.device.Some? && a.device.value in ms
    decreases |ms|
  {
    if ms != [] {
      var prefix := ms[..|ms| - 1];
      var last := ms[|ms| - 1];
      var d := Discover(accs, data0, prefix, fetch, uuidOf);
      RegisteredAreNew(accs, data0, prefix, fetch, uuidOf);
      ModuleEffectShape(accs, last, fetch, uuidOf);
      assert Discover(accs, data0, ms, fetch, uuidOf) == Step(d, accs, last, fetch, uuidOf);
      forall a | a in Discover(accs, data0, ms, fetch, uuidOf).registered
        ensures Find(accs, a.uuid).None? && a.device.Some? && a.device.value in ms
      {
        if a in d.registered {
          var i :| 0 <= i < |prefix| && prefix[i] == a.device.value;
          assert ms[i] == prefix[i];
        } else {
          assert a in ModuleEffect(accs, last, fetch, uuidOf).registered;
        }
      }
    }
  }

  /** A discovery that meets no error builds four handlers and starts one refresh timer per module, in module order. */
  lemma {:induction false} FourHandlersPerModule(accs: seq<Accessory>, data0: Option<Snapshot>, ms: seq<ModuleInfo>,
                                                 fetch: string -> Result<Snapshot, ApiError>, uuidOf: string -> string)
    requires Discover(accs, data0, ms, fetch, uuidOf).failure.None?
    ensures |Discover(accs, data0, ms, fetch, uuidOf).handlers| == 4 * |ms|
    ensures |Discover(accs, data0, ms, fetch, uuidOf).refreshTimers| == |ms|
    ensures forall i :: 0 <= i < |ms| ==> Discover(accs, data0, ms, fetch, uuidOf).refreshTimers[i] == ms[i].id
    decreases |ms|
  {
    if ms != [] {
      var prefix := ms[..|ms| - 1];
      var last := ms[|ms| - 1];
      assert Discover(accs, data0, prefix, fetch, uuidOf).failure.None?;
      FourHandlersPerModule(accs, data0, prefix, fetch, uuidOf);
      ModuleEffectShape(accs, last, fetch, uuidOf);
      forall i | 0 <= i < |ms|
        ensures Discover(accs, data0, ms, fetch, uuidOf).refreshTimers[i] == ms[i].id
      {
        if i < |prefix| {
          assert prefix[i] == ms[i];
        }
      }
    }
  }

  /**
   * In an error-free discovery the handlers of module i sit at positions
   * 4i to 4i+3, in block order, each bound to that module's UUID.
   */
  lemma {:induction false} HandlersInModuleOrder(accs: seq<Accessory>, data0: Option<Snapshot>, ms: seq<ModuleInfo>,
                                                 fetch: string -> Result<Snapshot, ApiError>, uuidOf: string -> string)
    requires Discover(accs, data0, ms, fetch, uuidOf).failure.None?
    ensures |Discover(accs, data0, ms, fetch, uuidOf).handlers| == 4 * |ms|
    ensures forall i, j :: 0 <= i < |ms| && 0 <= j < 4 ==>
              Discover(accs, data0, ms, fetch, uuidOf).handlers[4 * i + j].accessory.uuid
              == uuidOf(AccessoryKeys(ms[i].id)[j])
    decreases |ms|
  {
    FourHandlersPerModule(accs, data0, ms, fetch, uuidOf);
    if ms != [] {
      var prefix := ms[..|ms| - 1];
      var last := ms[|ms| - 1];
      var d := Discover(accs, data0, prefix, fetch, uuidOf);
      var e := ModuleEffect(accs, last, fetch, uuidOf);
      assert d.failure.None?;
      HandlersInModuleOrder(accs, data0, prefix, fetch, uuidOf);
      ModuleEffectShape(accs, last, fetch, uuidOf);
      var hs := Discover(accs, data0, ms, fetch, uuidOf).handlers;
      assert hs == d.handlers + e.handlers;
      forall i, j | 0 <= i < |ms| && 0 <= j < 4
        ensures hs[4 * i + j].accessory.uuid == uuidOf(AccessoryKeys(ms[i].id)[j])
      {
        if i < |prefix| {
          assert prefix[i] == ms[i];
          assert hs[4 * i + j] == d.handlers[4 * i + j];
        } else {
          assert hs[4 * i + j] == e.handlers[j];
        }
      }
    }
  }

  /** The shared snapshot: after an error-free discovery it is that of the last module fetched. */
  lemma DataIsLastFetched(accs: seq<Accessory>, data0: Option<Snapshot>, ms: seq<ModuleInfo>,
                          fetch: string -> Result<Snapshot, ApiError>, uuidOf: string -> string)
    requires |ms| > 0
    requires Discover(accs, data0, ms, fetch, uuidOf).failure.None?
    ensures fetch(ms[|ms| - 1].id).Success?
    ensures Discover(accs, data0, ms, fetch, uuidOf).data == Some(fetch(ms[|ms| - 1].id).value)
  {
    ModuleEffectShape(accs, ms[|ms| - 1], fetch, uuidOf);
  }

  /** No handler exists before the shared snapshot has been set, so every handler has data to read. */
  lemma {:induction false} HandlersSeeData(accs: seq<Accessory>, data0: Option<Snapshot>, ms: seq<ModuleInfo>,
                                           fetch: string -> Result<Snapshot, ApiError>, uuidOf: string -> string)
    ensures Discover(accs, data0, ms, fetch, uuidOf).handlers != [] ==>
              Discover(accs, data0, ms, fetch, uuidOf).data.Some?
    decreases |ms|
  {
    if ms != [] {
      HandlersSeeData(accs, data0, ms[..|ms| - 1], fetch, uuidOf);
    }
  }

  /** Discovery never unsets the shared snapshot: once set, it stays set. */
  lemma {:induction false} DataStaysSet(accs: seq<Accessory>, data0: Option<Snapshot>, ms: seq<ModuleInfo>,
                                        fetch: string -> Result<Snapshot, ApiError>, uuidOf: string -> string)
    ensures data0.Some? ==> Discover(accs, data0, ms, fetch, uuidOf).data.Some?
    decreases |ms|
  {
    if ms != [] {
      DataStaysSet(accs, data0, ms[..|ms| - 1], fetch, uuidOf);
    }
  }

  class MasterThermHomebridgePlatform {
    /** Accessories homebridge restored from its cache. */
    var accessories: seq<Accessory>
    /** The snapshot shared by every module's handlers. */
    var data: Option<Snapshot>
    /** Handlers built by discovery, in the order they were built. */
    var handlers: seq<Handler>
    /** Accessories passed to registerPlatformAccessories, in order. */
    var registered: seq<Accessory>
    /** Module ids whose two-minute refresh timer runs. */
    var refreshTimers: seq<string>
    /** Whether the ten-minute re-login timer runs. */
    var reloginTimer: bool

    /** Every handler reads the shared snapshot, so none may exist while it is unset. */
    predicate DataBeforeHandlers()
      reads this
    {
      handlers != [] ==> data.Some?
    }

    constructor ()
      ensures accessories == [] && data == None && handlers == [] && registered == []
      ensures DataBeforeHandlers()
      ensures refreshTimers == [] && !reloginTimer
    {
      accessories := [];
      data := None;
      handlers := [];
      registered := [];
      refreshTimers := [];
      reloginTimer := false;
    }

    /** Homebridge hands back one restored accessory; it is remembered and nothing else changes. */
    method ConfigureAccessory(accessory: Accessory)
      modifies this
      ensures accessories == old(accessories) + [accessory]
      ensures old(DataBeforeHandlers()) ==> DataBeforeHandlers()
      ensures data == old(data) && handlers == old(handlers) && registered == old(registered)
      ensures refreshTimers == old(refreshTimers) && reloginTimer == old(reloginTimer)
    {
      accessories := accessories + [accessory];
    }

    /** Looks the UUID up among the restored accessories; registers a new accessory when there is none. */
    method PlaceAccessory(uuid: string, displayName: string, m: ModuleInfo) returns (accessory: Accessory)
      modifies this
      ensures accessory == Place(accessories, uuid, displayName, m).accessory
      ensures registered == old(registered) + Place(accessories, uuid, displayName, m).registered
      ensures accessories == old(accessories) && data == old(data) && handlers == old(handlers)
      ensures refreshTimers == old(refreshTimers) && reloginTimer == old(reloginTimer)
    {
      var existing := Find(accessories, uuid);
      if existing.Some? {
        accessory := existing.value;
      } else {
        accessory := Accessory(displayName, uuid, Some(m));
        registered := registered + [accessory];
      }
    }

    /** The first three blocks of the module loop: heat-pump thermostat, indoor and outdoor sensors. */
    method PlaceFirstThree(m: ModuleInfo, uuidOf: string -> string)
      modifies this
      ensures handlers == old(handlers) + FirstThree(accessories, m, uuidOf).handlers
      ensures registered == old(registered) + FirstThree(accessories, m, uuidOf).registered
      ensures accessories == old(accessories) && data == old(data)
      ensures refreshTimers == old(refreshTimers) && reloginTimer == old(reloginTimer)
    {
      var keys := AccessoryKeys(m.id);
      var heatPump := PlaceAccessory(uuidOf(keys[0]), "Heating thermostat", m);
      handlers := handlers + [HeatPumpHandler(heatPump)];

      var indoor := PlaceAccessory(uuidOf(keys[1]), "Indoor temperature", m);
      handlers := handlers + [SensorHandler(indoor, "Indoor", IndoorTemperaturePoint)];

      var outdoor := PlaceAccessory(uuidOf(keys[2]), "Outdoor temperature", m);
      handlers := handlers + [SensorHandler(outdoor, "Outdoor", OutdoorTemperaturePoint)];
    }

    /** The body of the module loop for one module; `failure` is the error that ends discovery, if any. */
    method DiscoverModule(m: ModuleInfo, fetch: string -> Result<Snapshot, ApiError>, uuidOf: string -> string)
      returns (failure: Option<ApiError>)
      modifies this
      ensures var e := ModuleEffect(old(accessories), m, fetch, uuidOf);
              handlers == old(handlers) + e.handlers && registered == old(registered) + e.registered
              && refreshTimers == old(refreshTimers) + (if e.fetched.Some? then [m.id] else [])
              && data == (if e.fetched.Some? then e.fetched else old(data))
              && failure == e.failure
      ensures accessories == old(accessories) && reloginTimer == old(reloginTimer)
    {
      var fetched := fetch(m.id);
      if fetched.Failure? {
        return Some(fetched.error);
      }
      data := Some(fetched.value);
      refreshTimers := refreshTimers + [m.id];
      PlaceFirstThree(m, uuidOf);

      var min := AnalogPoint(fetched.value, HotWaterMinPoint);
      if min.Failure? {
        return Some(min.error);
      }
      var max := AnalogPoint(fetched.value, HotWaterMaxPoint);
      if max.Failure? {
        return Some(max.error);
      }
      var hotWater := PlaceAccessory(uuidOf(AccessoryKeys(m.id)[3]), "Hot water system", m);
      handlers := handlers + [HotWaterHandler(hotWater, min.value, max.value)];
      failure := None;
    }

    /** The module loop: modules in order, until the first error, which is returned. */
    method DiscoverModules(ms: seq<ModuleInfo>, fetch: string -> Result<Snapshot, ApiError>, uuidOf: string -> string)
      returns (r: Outcome<ApiError>)
      modifies this
      ensures var d := Discover(old(accessories), old(data), ms, fetch, uuidOf);
              handlers == old(handlers) + d.handlers && registered == old(registered) + d.registered
              && refreshTimers == old(refreshTimers) + d.refreshTimers && data == d.data
              && r == (if d.failure.Some? then Fail(d.failure.value) else Pass)
      ensures accessories == old(accessories) && reloginTimer == old(reloginTimer)
    {
      ghost var accs, data0 := accessories, data;
      ghost var handlers0, registered0, timers0 := handlers, registered, refreshTimers;
      var i := 0;
      while i < |ms|
        invariant 0 <= i <= |ms|
        invariant accessories == accs && reloginTimer == old(reloginTimer)
        invariant var d := Discover(accs, data0, ms[..i], fetch, uuidOf);
                  handlers == handlers0 + d.handlers && registered == registered0 + d.registered
                  && refreshTimers == timers0 + d.refreshTimers && data == d.data && d.failure.None?
      {
        DiscoverOneMore(accs, data0, ms, i, fetch, uuidOf);
        ghost var d := Discover(accs, data0, ms[..i], fetch, uuidOf);
        ghost var e := ModuleEffect(accs, ms[i], fetch, uuidOf);
        ghost var timer := if e.fetched.Some? then [ms[i].id] else [];
        AppendAssoc(handlers0, d.handlers, e.handlers);
        AppendAssoc(registered0, d.registered, e.registered);
        AppendAssoc(timers0, d.refreshTimers, timer);
        var failure := DiscoverModule(ms[i], fetch, uuidOf);
        if failure.Some? {
          FailureIsFinal(accs, data0, ms, i + 1, fetch, uuidOf);
          return Fail(failure.value);
        }
        i := i + 1;
      }
      assert ms[..i] == ms;
      r := Pass;
    }

    /**
     * Discovery after homebridge has restored its cache. A login that throws
     * rejects the call at once; nothing is built and no timer starts unless
     * the login's returncode is 0; an error thrown by a fetch or a bound
     * lookup ends the loop and rejects the call.
     */
    method DiscoverDevices(login: Result<LoginResponse, ApiError>,
                           fetch: string -> Result<Snapshot, ApiError>, uuidOf: string -> string)
      returns (r: Outcome<ApiError>)
      modifies this
      ensures accessories == old(accessories)
      ensures login.Failure? ==>
                r == Fail(login.error) && data == old(data) && handlers == old(handlers)
                && registered == old(registered) && refreshTimers == old(refreshTimers)
                && reloginTimer == old(reloginTimer)
      ensures login.Success? && login.value.returncode != 0 ==>
                r == Pass && data == old(data) && handlers == old(handlers) && registered == old(registered)
                && refreshTimers == old(refreshTimers) && reloginTimer == old(reloginTimer)
      ensures login.Success? && login.value.returncode == 0 ==>
                var d := Discover(old(accessories), old(data), login.value.modules, fetch, uuidOf);
                reloginTimer && handlers == old(handlers) + d.handlers && registered == old(registered) + d.registered
                && refreshTimers == old(refreshTimers) + d.refreshTimers && data == d.data
                && r == (if d.failure.Some? then Fail(d.failure.value) else Pass)
      ensures old(DataBeforeHandlers()) ==> DataBeforeHandlers()
    {
      if login.Failure? {
        return Fail(login.error);
      }
      if login.value.returncode != 0 {
        return Pass;
      }
      reloginTimer := true;
      HandlersSeeData(accessories, data, login.value.modules, fetch, uuidOf);
      DataStaysSet(accessories, data, login.value.modules, fetch, uuidOf);
      r := DiscoverModules(login.value.modules, fetch, uuidOf);
    }

    /** One run of a module's two-minute refresh timer: a failed fetch is caught and keeps the old snapshot. */
    method RefreshTick(moduleId: string, fetched: Result<Snapshot, ApiError>)
      requires moduleId in refreshTimers
      modifies this
      ensures data == if fetched.Success? then Some(fetched.value) else old(data)
      ensures old(data).Some? ==> data.Some?
      ensures old(DataBeforeHandlers()) ==> DataBeforeHandlers()
      ensures accessories == old(accessories) && handlers == old(handlers) && registered == old(registered)
      ensures refreshTimers == old(refreshTimers) && reloginTimer == old(reloginTimer)
    {
      if fetched.Success? {
        data := Some(fetched.value);
      }
    }

    /** One run of the ten-minute re-login timer: its outcome is caught and changes nothing here. */
    method ReloginTick(login: Outcome<ApiError>)
      requires reloginTimer
    {
    }
  }
}

=== FILE: platform_accessory.dfy ===
/**
 * The four-mode heat-pump thermostat (`MasterThermPlatformAccessory`).
 *
 * It keeps its own snapshot cache, filled only by its one-minute refresh
 * tick; a read uses the cache and, while it is empty, fetches a snapshot on
 * demand without keeping it. Its handlers have no try/catch, so every error
 * of the client reaches the caller as it was thrown.
 */
module PlatformAccessory {
  import opened Wrappers
  import opened Points
  import opened HomeKit
  import opened Api

  const PowerPoint: nat := 3             // D_3: the heat pump is switched on
  const SeasonPoint: nat := 24           // D_24: heating season (otherwise cooling)
  const ModePoint: nat := 50             // I_50: 0 auto, 1 heat, 2 cool
  const CurrentTemperaturePoint: nat := 211
  const TargetTemperaturePoint: nat := 191

  /** What the device is doing: OFF when switched off, else HEAT or COOL by season. */
  function CurrentStateOf(s: Snapshot): (r: Result<CurrentState, ApiError>)
    ensures r == Success(CurrentOff) <==> BoolPoint(s, PowerPoint) == Success(false)
    ensures r == Success(CurrentHeat) <==>
              BoolPoint(s, PowerPoint) == Success(true) && BoolPoint(s, SeasonPoint) == Success(true)
    ensures r == Success(CurrentCool) <==>
              BoolPoint(s, PowerPoint) == Success(true) && BoolPoint(s, SeasonPoint) == Success(false)
  {
    var power := BoolPoint(s, PowerPoint);
    if power.Failure? then Failure(power.error)
    else if !power.value then Success(CurrentOff)
    else
      var season := BoolPoint(s, SeasonPoint);
      if season.Failure? then Failure(season.error)
      else if season.value then Success(CurrentHeat)
      else Success(CurrentCool)
  }

  /** The mode set on the device: OFF when switched off, else by I_50, AUTO for any unknown code. */
  function TargetStateOf(s: Snapshot): (r: Result<TargetState, ApiError>)
    ensures r == Success(Off) <==> BoolPoint(s, PowerPoint) == Success(false)
    ensures r == Success(Heat) <==>
              BoolPoint(s, PowerPoint) == Success(true) && IntPoint(s, ModePoint) == Success(1)
    ensures r == Success(Cool) <==>
              BoolPoint(s, PowerPoint) == Success(true) && IntPoint(s, ModePoint) == Success(2)
    ensures r == Success(Auto) <==>
              BoolPoint(s, PowerPoint) == Success(true) && IntPoint(s, ModePoint).Success?
              && IntPoint(s, ModePoint).value != 1 && IntPoint(s, ModePoint).value != 2
  {
    var power := BoolPoint(s, PowerPoint);
    if power.Failure? then Failure(power.error)
    else if !power.value then Success(Off)
    else
      var mode := IntPoint(s, ModePoint);
      if mode.Failure? then Failure(mode.error)
      else if mode.value == 0 then Success(Auto)
      else if mode.value == 1 then Success(Heat)
      else if mode.value == 2 then Success(Cool)
      else Success(Auto)
  }

  /** The writes a requested mode is translated into, in the order they are issued. */
  function TargetStateWrites(req: Requested): seq<PointWrite>
  {
    match req
    case Mode(Off) => [PointWrite("D_3", 0.0)]
    case Mode(Auto) => [PointWrite("D_3", 1.0), PointWrite("I_50", 0.0)]
    case Mode(Heat) => [PointWrite("D_3", 1.0), PointWrite("I_50", 1.0)]
    case Mode(Cool) => [PointWrite("D_3", 1.0), PointWrite("I_50", 2.0)]
    case OtherValue => []
  }

  /** Whatever the device held before, once a mode's writes take effect it reads back as that mode. */
  lemma TargetStateRoundTrip(s: Snapshot, t: TargetState)
    ensures TargetStateOf(Apply(s, TargetStateWrites(Mode(t)))) == Success(t)
  {
    var ws := TargetStateWrites(Mode(t));
    assert Key(Boolean, PowerPoint) == "D_3" && Key(Integer, ModePoint) == "I_50";
    if t == Off {
      assert Apply(s, ws) == s["D_3" := Number(0.0)];
    } else {
      var s1 := s["D_3" := Number(1.0)];
      var s2 := s1["I_50" := Number(ws[1].value)];
      assert ws[1..][1..] == [];
      assert Apply(s1, ws[1..]) == Apply(s2, []) == s2;
      assert Apply(s, ws) == s2;
    }
  }

  /**
   * Switching on comes first: every mode other than OFF writes D_3 = 1
   * before I_50, so when that first write is refused no mode write is sent.
   */
  lemma PowerWrittenFirst(t: TargetState)
    requires t != Off
    ensures var ws := TargetStateWrites(Mode(t));
            |ws| == 2 && ws[0] == PointWrite(Key(Boolean, PowerPoint), 1.0)
            && ws[1].key == Key(Integer, ModePoint)
            && Sent(ws, Some(0)) == [PointWrite(Key(Boolean, PowerPoint), 1.0)]
  {
    assert Key(Boolean, PowerPoint) == "D_3" && Key(Integer, ModePoint) == "I_50";
  }

  class MasterThermPlatformAccessory {
    const moduleId: string
    /** The accessory builds a client of its own. */
    const api: MasterThermApi
    var cachedData: Option<Snapshot>

    constructor (moduleId: string)
      ensures this.moduleId == moduleId && fresh(api) && api.log == [] && cachedData == None
    {
      this.moduleId := moduleId;
      api := new MasterThermApi();
      cachedData := None;
    }

    function HandleCurrentHeatingCoolingStateGet(fetch: Result<Snapshot, ApiError>): (r: Result<CurrentState, ApiError>)
      reads this
      ensures cachedData.Some? ==> r == CurrentStateOf(cachedData.value)
      ensures cachedData.None? && fetch.Success? ==> r == CurrentStateOf(fetch.value)
      ensures cachedData.None? && fetch.Failure? ==> r == Failure(fetch.error)
    {
      var response := CachedOrFetched(cachedData, fetch);
      if response.Failure? then Failure(response.error) else CurrentStateOf(response.value)
    }

    function HandleTargetHeatingCoolingStateGet(fetch: Result<Snapshot, ApiError>): (r: Result<TargetState, ApiError>)
      reads this
      ensures cachedData.Some? ==> r == TargetStateOf(cachedData.value)
      ensures cachedData.None? && fetch.Success? ==> r == TargetStateOf(fetch.value)
      ensures cachedData.None? && fetch.Failure? ==> r == Failure(fetch.error)
    {
      var response := CachedOrFetched(cachedData, fetch);
      if response.Failure? then Failure(response.error) else TargetStateOf(response.value)
    }

    /**
     * Issues the writes of the requested mode one after another; `rejected`
     * is the position of the first write the service refuses, if any. The
     * cache is left alone: the next refresh tick shows the new state.
     */
    method HandleTargetHeatingCoolingStateSet(req: Requested, rejected: Option<nat>) returns (r: Outcome<ApiError>)
      modifies api
      ensures api.log == old(api.log) + Requests(moduleId, Sent(TargetStateWrites(req), rejected))
      ensures r == SentOutcome(TargetStateWrites(req), rejected)
    {
      match req {
        case Mode(Off) =>
          r := api.SetData(moduleId, "D_3", 0.0, rejected != Some(0));
        case Mode(Auto) =>
          r := api.SetData(moduleId, "D_3", 1.0, rejected != Some(0));
          if r.Pass? {
            r := api.SetData(moduleId, "I_50", 0.0, rejected != Some(1));
          }
        case Mode(Heat) =>
          r := api.SetData(moduleId, "D_3", 1.0, rejected != Some(0));
          if r.Pass? {
            r := api.SetData(moduleId, "I_50", 1.0, rejected != Some(1));
          }
        case Mode(Cool) =>
          r := api.SetData(moduleId, "D_3", 1.0, rejected != Some(0));
          if r.Pass? {
            r := api.SetData(moduleId, "I_50", 2.0, rejected != Some(1));
          }
        case OtherValue =>
          r := Pass;
      }
    }

    function HandleCurrentTemperatureGet(fetch: Result<Snapshot, ApiError>): (r: Result<real, ApiError>)
      reads this
      ensures var response := CachedOrFetched(cachedData, fetch);
              r.Success? <==> response.Success? && AnalogPoint(response.value, CurrentTemperaturePoint).Success?
      ensures r.Success? ==> AnalogPoint(CachedOrFetched(cachedData, fetch).value, CurrentTemperaturePoint) == r
    {
      var response := CachedOrFetched(cachedData, fetch);
      if response.Failure? then Failure(response.error)
      else AnalogPoint(response.value, CurrentTemperaturePoint)
    }

    function HandleTargetTemperatureGet(fetch: Result<Snapshot, ApiError>): (r: Result<real, ApiError>)
      reads this
      ensures var response := CachedOrFetched(cachedData, fetch);
              r.Success? <==> response.Success? && AnalogPoint(response.value, TargetTemperaturePoint).Success?
      ensures r.Success? ==> AnalogPoint(CachedOrFetched(cachedData, fetch).value, TargetTemperaturePoint) == r
    {
      var response := CachedOrFetched(cachedData, fetch);
      if response.Failure? then Failure(response.error)
      else AnalogPoint(response.value, TargetTemperaturePoint)
    }

    /** Writes the requested temperature to A_191, the point the target-temperature read uses. */
    method HandleTargetTemperatureSet(value: real, accepted: bool) returns (r: Outcome<ApiError>)
      modifies api
      ensures api.log == old(api.log) + [SetDataRequest(moduleId, Key(Analog, TargetTemperaturePoint), value)]
      ensures r.Pass? <==> accepted
    {
      WrittenKeys();
      r := api.SetData(moduleId, "A_191", value, accepted);
    }

    /**
     * One run of the one-minute timer: log in, fetch and store a snapshot,
     * then read the four values pushed to HomeKit. Nothing is caught: a
     * failing login or fetch leaves the cache as it was, and the first
     * failing read ends the tick with its error.
     */
    method RefreshTick(login: Outcome<ApiError>, fetched: Result<Snapshot, ApiError>) returns (r: Result<Readings, ApiError>)
      modifies this
      ensures cachedData == if login.Pass? && fetched.Success? then Some(fetched.value) else old(cachedData)
      ensures login.Fail? ==> r == Failure(login.error)
      ensures login.Pass? && fetched.Failure? ==> r == Failure(fetched.error)
      ensures login.Pass? && fetched.Success? && CurrentStateOf(fetched.value).Failure? ==>
                r == Failure(CurrentStateOf(fetched.value).error)
      ensures login.Pass? && fetched.Success? && CurrentStateOf(fetched.value).Success?
              && TargetStateOf(fetched.value).Failure? ==>
                r == Failure(TargetStateOf(fetched.value).error)
      ensures login.Pass? && fetched.Success? && CurrentStateOf(fetched.value).Success?
              && TargetStateOf(fetched.value).Success?
              && AnalogPoint(fetched.value, TargetTemperaturePoint).Failure? ==>
                r == Failure(AnalogPoint(fetched.value, TargetTemperaturePoint).error)
      ensures login.Pass? && fetched.Success? && CurrentStateOf(fetched.value).Success?
              && TargetStateOf(fetched.value).Success?
              && AnalogPoint(fetched.value, TargetTemperaturePoint).Success?
              && AnalogPoint(fetched.value, CurrentTemperaturePoint).Failure? ==>
                r == Failure(AnalogPoint(fetched.value, CurrentTemperaturePoint).error)
      ensures login.Pass? && fetched.Success? ==>
                (r.Success? <==> CurrentStateOf(fetched.value).Success? && TargetStateOf(fetched.value).Success?
                                 && AnalogPoint(fetched.value, TargetTemperaturePoint).Success?
                                 && AnalogPoint(fetched.value, CurrentTemperaturePoint).Success?)
      ensures r.Success? ==>
                Success(r.value.current) == CurrentStateOf(fetched.value)
                && Success(r.value.target) == TargetStateOf(fetched.value)
                && Success(r.value.targetTemperature) == AnalogPoint(fetched.value, TargetTemperaturePoint)
                && Success(r.value.currentTemperature) == AnalogPoint(fetched.value, CurrentTemperaturePoint)
    {
      if login.Fail? {
        return Failure(login.error);
      }
      if fetched.Failure? {
        return Failure(fetched.error);
      }
      cachedData := Some(fetched.value);
      var current := HandleCurrentHeatingCoolingStateGet(fetched);
      if current.Failure? {
        return Failure(current.error);
      }
      var target := HandleTargetHeatingCoolingStateGet(fetched);
      if target.Failure? {
        return Failure(target.error);
      }
      var targetTemperature := HandleTargetTemperatureGet(fetched);
      if targetTemperature.Failure? {
        return Failure(targetTemperature.error);
      }
      var currentTemperature := HandleCurrentTemperatureGet(fetched);
      if currentTemperature.Failure? {
        return Failure(currentTemperature.error);
      }
      r := Success(Readings(current.value, target.value, targetTemperature.value, currentTemperature.value));
    }
  }
}

=== FILE: points.dfy ===
/**
 * A device snapshot and the point-addressed values inside it.
 *
 * A snapshot maps wire keys such as "D_3", "I_50" or "A_211" to raw values.
 * A key is the kind prefix ('D' boolean, 'I' integer, 'A' analog), an
 * underscore and the decimal point id. Reading a point can fail: the key may
 * be absent or hold a value of the wrong shape.
 */
module Points {
  import opened Wrappers

  datatype PointKind = Boolean | Integer | Analog

  /** A raw value of the snapshot payload: a JSON boolean or a JSON number. */
  datatype Raw = Flag(b: bool) | Number(x: real)

  type Snapshot = map<string, Raw>

  /** Every way an awaited call of the vendor client can throw. */
  datatype ApiError =
    | LoginFailed      // the login request or reading its reply throws
    | FetchFailed      // a getData request throws
    | WriteFailed      // the service refuses a setData request
    | PointNotFound(key: string)
    | WrongType(key: string)

  function Prefix(kind: PointKind): char
  {
    match kind
    case Boolean => 'D'
    case Integer => 'I'
    case Analog => 'A'
  }

  function DigitChar(d: nat): char
    requires d < 10
  {
    ('0' as int + d) as char
  }

  /** The decimal spelling of a point id, without leading zeros. */
  function Decimal(n: nat): (s: string)
    ensures |s| >= 1
    ensures forall i :: 0 <= i < |s| ==> '0' <= s[i] <= '9'
    ensures |s| == 1 <==> n < 10
    decreases n
  {
    if n < 10 then [DigitChar(n)] else Decimal(n / 10) + [DigitChar(n % 10)]
  }

  /** Two ids with the same decimal spelling are the same id. */
  lemma {:induction false} DecimalInjective(a: nat, b: nat)
    requires Decimal(a) == Decimal(b)
    ensures a == b
  {
    if a < 10 && b < 10 {
      assert Decimal(a)[0] == DigitChar(a);
      assert Decimal(b)[0] == DigitChar(b);
    } else if a >= 10 && b >= 10 {
      var da, db := Decimal(a / 10), Decimal(b / 10);
      assert Decimal(a) == da + [DigitChar(a % 10)];
      assert Decimal(b) == db + [DigitChar(b % 10)];
      assert |da| == |db|;
      assert Decimal(a)[|da|] == DigitChar(a % 10);
      assert Decimal(b)[|db|] == DigitChar(b % 10);
      assert a % 10 == b % 10;
      assert da == Decimal(a)[..|da|] == Decimal(b)[..|db|] == db;
      DecimalInjective(a / 10, b / 10);
    }
  }

  /** The wire key of a point: "D_3", "I_50", "A_191", ... */
  function Key(kind: PointKind, id: nat): string
  {
    [Prefix(kind), '_'] + Decimal(id)
  }

  /** Distinct points have distinct wire keys, so writing one never disturbs another. */
  lemma KeyInjective(k1: PointKind, i1: nat, k2: PointKind, i2: nat)
    requires Key(k1, i1) == Key(k2, i2)
    ensures k1 == k2 && i1 == i2
  {
    assert Key(k1, i1)[0] == Prefix(k1) && Key(k2, i2)[0] == Prefix(k2);
    assert Key(k1, i1)[2..] == Decimal(i1);
    assert Key(k2, i2)[2..] == Decimal(i2);
    DecimalInjective(i1, i2);
  }

  /** The spelling of the keys the accessories write as string literals. */
  lemma WrittenKeys()
    ensures Key(Boolean, 3) == "D_3" && Key(Integer, 50) == "I_50"
    ensures Key(Analog, 191) == "A_191" && Key(Analog, 129) == "A_129"
  {
    assert Decimal(5) == "5" && Decimal(1) == "1" && Decimal(12) == "12";
    assert Decimal(50) == Decimal(5) + "0";
    assert Decimal(19) == Decimal(1) + "9";
    assert Decimal(191) == Decimal(19) + "1";
    assert Decimal(129) == Decimal(12) + "9";
  }

  function Lookup(s: Snapshot, kind: PointKind, id: nat): Result<Raw, ApiError>
  {
    var key := Key(kind, id);
    if key in s then Success(s[key]) else Failure(PointNotFound(key))
  }

  /**
   * The boolean at point "D_<id>": a JSON boolean as it is, a number as
   * "not zero" (the service is written 0 and 1).
   */
  function BoolPoint(s: Snapshot, id: nat): (r: Result<bool, ApiError>)
    ensures r.Success? <==> Key(Boolean, id) in s
    ensures r.Success? ==> r.value == (s[Key(Boolean, id)] == Flag(true)
                                       || (s[Key(Boolean, id)].Number? && s[Key(Boolean, id)].x != 0.0))
    ensures r.Failure? ==> r.error == PointNotFound(Key(Boolean, id))
  {
    match Lookup(s, Boolean, id)
    case Failure(e) => Failure(e)
    case Success(Flag(b)) => Success(b)
    case Success(Number(x)) => Success(x != 0.0)
  }

  /** The integer at point "I_<id>": a number without fractional part. */
  function IntPoint(s: Snapshot, id: nat): (r: Result<int, ApiError>)
    ensures r.Success? <==> Key(Integer, id) in s && s[Key(Integer, id)].Number?
                            && s[Key(Integer, id)].x == s[Key(Integer, id)].x.Floor as real
    ensures r.Success? ==> r.value as real == s[Key(Integer, id)].x
  {
    match Lookup(s, Integer, id)
    case Failure(e) => Failure(e)
    case Success(Flag(_)) => Failure(WrongType(Key(Integer, id)))
    case Success(Number(x)) =>
      if x.Floor as real == x then Success(x.Floor) else Failure(WrongType(Key(Integer, id)))
  }

  /** The analog value (a temperature, passed through untouched) at point "A_<id>". */
  function AnalogPoint(s: Snapshot, id: nat): (r: Result<real, ApiError>)
    ensures r.Success? <==> Key(Analog, id) in s && s[Key(Analog, id)].Number?
    ensures r.Success? ==> r.value == s[Key(Analog, id)].x
  {
    match Lookup(s, Analog, id)
    case Failure(e) => Failure(e)
    case Success(Flag(_)) => Failure(WrongType(Key(Analog, id)))
    case Success(Number(x)) => Success(x)
  }

  /** One setData request as the accessories issue it: a wire key and a number. */
  datatype PointWrite = PointWrite(key: string, value: real)

  /** The snapshot the device would report once the writes have taken effect, in order. */
  function Apply(s: Snapshot, ws: seq<PointWrite>): Snapshot
    decreases |ws|
  {
    if ws == [] then s else Apply(s[ws[0].key := Number(ws[0].value)], ws[1..])
  }

  /** The number a boolean point is written as. */
  function BoolWire(b: bool): real
  {
    if b then 1.0 else 0.0
  }

  /** Reading a point back after writing it yields the written value, for each kind. */
  lemma WriteThenRead(s: Snapshot, id: nat, b: bool, n: int, x: real)
    ensures BoolPoint(s[Key(Boolean, id) := Number(BoolWire(b))], id) == Success(b)
    ensures IntPoint(s[Key(Integer, id) := Number(n as real)], id) == Success(n)
    ensures AnalogPoint(s[Key(Analog, id) := Number(x)], id) == Success(x)
  {
  }

  /** Writing one point leaves every other point's reading as it was. */
  lemma WriteOtherPoint(s: Snapshot, kind: PointKind, id: nat, other: PointKind, otherId: nat, v: real)
    requires kind != other || id != otherId
    ensures var s' := s[Key(kind, id) := Number(v)];
            Lookup(s', other, otherId) == Lookup(s, other, otherId)
  {
    if Key(kind, id) == Key(other, otherId) {
      KeyInjective(kind, id, other, otherId);
    }
  }
}

=== FILE: temperature_sensor.dfy ===
/**
 * A temperature sensor bound to one analog point (`TemperatureSensorAccessory`).
 *
 * It owns a client and a snapshot cache of its own. The cache is written
 * only by the one-minute refresh tick, and only when both the login and the
 * fetch succeed; a read prefers the cache and otherwise fetches on demand
 * without keeping the result.
 */
module TemperatureSensor {
  import opened Wrappers
  import opened Points
  import opened HomeKit
  import opened Api

  class TemperatureSensorAccessory {
    const moduleId: string
    const name: string
    /** The analog point this sensor reports. */
    const valueId: nat
    const api: MasterThermApi
    var cachedData: Option<Snapshot>

    constructor (moduleId: string, name: string, valueId: nat)
      ensures this.moduleId == moduleId && this.name == name && this.valueId == valueId
      ensures fresh(api) && api.log == [] && cachedData == None
    {
      this.moduleId := moduleId;
      this.name := name;
      this.valueId := valueId;
      api := new MasterThermApi();
      cachedData := None;
    }

    /**
     * The analog value `valueId` of the cached snapshot, or of the snapshot
     * `fetch` would give while nothing is cached; any failure of either step
     * is reported as SERVICE_COMMUNICATION_FAILURE.
     */
    function HandleCurrentTemperatureGet(fetch: Result<Snapshot, ApiError>): (r: Result<real, HapStatus>)
      reads this
      ensures var response := CachedOrFetched(cachedData, fetch);
              r.Success? <==> response.Success? && AnalogPoint(response.value, valueId).Success?
      ensures r.Success? ==> AnalogPoint(CachedOrFetched(cachedData, fetch).value, valueId) == Success(r.value)
    {
      var response := CachedOrFetched(cachedData, fetch);
      if response.Failure? then Failure(ServiceCommunicationFailure)
      else CommunicationGuard(AnalogPoint(response.value, valueId))
    }

    /**
     * One run of the one-minute timer. Every failure is caught inside the
     * tick; `pushed` is the temperature sent to HomeKit, if the tick got that far.
     */
    method RefreshTick(login: Outcome<ApiError>, fetched: Result<Snapshot, ApiError>) returns (pushed: Option<real>)
      modifies this
      ensures cachedData == if login.Pass? && fetched.Success? then Some(fetched.value) else old(cachedData)
      ensures old(cachedData).Some? ==> cachedData.Some?
      ensures pushed.Some? <==> login.Pass? && fetched.Success? && AnalogPoint(fetched.value, valueId).Success?
      ensures pushed.Some? ==> AnalogPoint(fetched.value, valueId) == Success(pushed.value)
    {
      pushed := None;
      if login.Fail? || fetched.Failure? {
        return;
      }
      cachedData := Some(fetched.value);
      var current := HandleCurrentTemperatureGet(fetched);
      if current.Success? {
        pushed := Some(current.value);
      }
    }
  }
}

=== FILE: wrappers.dfy ===
/** Failure-carrying values shared by every module of the model. */
module Wrappers {

  datatype Option<T> = None | Some(value: T)

  /** What an awaited call that may throw produces: its value, or the error it threw. */
  datatype Result<T, E> = Success(value: T) | Failure(error: E)

  /** What an awaited call without a value produces: it resolved, or it threw. */
  datatype Outcome<E> = Pass | Fail(error: E)
}
